=== FILE: README.md ===
# PulseSoul reader: a Dafny model of its data logic

PulseSoul is a browser reader for the Quran. It has two widgets. The daily
verse widget shows one random verse per calendar day and translation, and
caches it in local storage. The chapter (surah) explorer lists the 114
chapters, searches them, pages through the verses (ayahs) of the chosen
chapter, remembers the reading position per chapter, and keeps favourites.
Both widgets read a public REST API through a small gateway.

This project models the logic inside those three pieces as total functions
over immutable values, and proves what they promise:

- `Api` (`src/lib/api.js`) reshapes the API responses. It covers the chapter
  list, the three-edition chapter zip, the random verse, the edition list,
  the verse key and the error on a non-ok response.
- `Explorer` (`src/components/SurahExplorer.jsx`) covers search, clamped
  `next`/`prev`, the swipe threshold, position restore, the progress map
  and the favourite toggle. It also has one pure step per effect or handler
  on an explicit `State`, with an invariant `Valid` that every step keeps.
- `DailyVerse` (`src/components/DailyVerse.jsx`) covers the date-scoped cache
  key and its parse-back, the cache-hit / fetch / `active`-flag steps, and
  the bookmark toggle.
- `KeyedList` holds the one toggle both widgets use: remove by key, or
  prepend and cap. `Seqs` holds `filter` and the subsequence relation.
  `Text` holds `trim`, `toLowerCase`, `includes`, `String(n)` and two
  splitting functions used as inverses. `Wrappers` holds `Option` and
  `Result`.

Inputs stand in for the outside world:

- An HTTP request is a call of a `fetch: string -> Response<T>` parameter.
  `Response` carries the `ok` flag and the already-parsed `data`.
- The clock reading is the `toISOString()` string.
- Local storage is a map passed in and returned.
- The settled promise and the effect's `active` flag are arguments of the
  step that handles them.

Behaviour the model keeps from the code:

- The saved-position restore only checks the upper bound. A negative saved
  index would be restored as is. `Explorer.Valid` shows that the app itself
  never stores one.
- A failed request sets the error message even after cleanup has cleared
  `active`, in both widgets. Only the success path and `loading` are guarded.
  `Explorer.ContentLoaded` and `DailyVerse.Resolve` state this.
- `toggleFav` and `toggleBookmark` either remove every entry with the key or
  prepend one. They never move an existing entry to the front.
- `next` treats a missing or empty verse list as length 1. So `next` from
  position 0 of an empty chapter stays at 0.
- A successful load never clears the error message. Once "Failed to load Surah content" is set, it stays on screen through later successful loads (`Explorer.ContentLoaded`, `Explorer.Open`).
- Opening a chapter first writes the position still on screen under the new chapter's number, since the progress effect runs before the new content arrives. The restore reads the progress captured before that write, so a successful load overwrites it. A failed load leaves it in place, and a later visit restores from it (`Explorer.Open`, `Explorer.FailedOpenKeepsStaleRecord`).
- In the random verse, a missing chapter name shows as `Surah`. The key is
  still built from the raw value, so it is `undefined:<n>` or `:<n>`
  (`Api.SurahLabel`, `Api.GetRandomAyahWithEditions`).

## Model

| member | source | states |
|---|---|---|
| `Seqs.Filter` | src/components/SurahExplorer.jsx:63 | the result is an order-preserving subsequence that keeps exactly the elements satisfying the test, each as often as in the input |
| `Text.Trim` | src/components/SurahExplorer.jsx:61 | the result is the infix of the input surrounded only by JavaScript white space, and it neither starts nor ends with white space |
| `Text.TrimEmptyIffBlank` | src/components/SurahExplorer.jsx:61-62 | trimming gives the empty string exactly when the input is all white space |
| `Text.Lower` | src/components/SurahExplorer.jsx:61 | same length; each upper-case ASCII letter becomes its lower-case letter, other characters are kept; no upper-case ASCII letter remains |
| `Text.TrimCommutesWithLower` | src/components/SurahExplorer.jsx:61 | trimming then lower-casing equals lower-casing then trimming |
| `Text.ContainsIff` | src/components/SurahExplorer.jsx:63 | the `includes` scan succeeds exactly when the needle occurs at some position of the haystack |
| `Text.Decimal` | src/components/SurahExplorer.jsx:63 | `String(n)` for a non-negative integer below 10^21 is a non-empty digit string with no leading zero |
| `Text.DecimalRoundTrip` | src/lib/api.js:28 | reading the decimal string of a number back gives the number |
| `Text.ParseDecimalRoundTrip` | src/lib/api.js:28 | a digit string without a leading zero is exactly the decimal string of the number it reads as |
| `Text.SplitLastSound` | src/lib/api.js:28 | a split at the last separator succeeds iff the separator occurs; the parts joined around it give the input back, and the second part holds no separator |
| `Explorer.NormalizeQuery` | src/components/SurahExplorer.jsx:61-62 | the normalized query is empty exactly when the raw query is blank |
| `Explorer.Filtered` | src/components/SurahExplorer.jsx:60-64 | a blank query returns the list unchanged; otherwise the result is an order-preserving subsequence holding exactly the chapters that match, with their multiplicities |
| `Explorer.FilteredIgnoresQueryCase` | src/components/SurahExplorer.jsx:61 | lower-casing the query first gives the same search result |
| `Explorer.FilteredMembership` | src/components/SurahExplorer.jsx:63 | for a non-blank query, a listed chapter is shown iff it matches the normalized query |
| `Explorer.FilteredKeepsExactlyMatches` | src/components/SurahExplorer.jsx:61-63 | a listed chapter is shown iff the trimmed lower-cased query occurs in its lower-cased English name or in its decimal number |
| `Explorer.NavLength` | src/components/SurahExplorer.jsx:88 | the navigable length is the ayah count when there are ayahs, and exactly 1 when the data is missing or has no ayahs |
| `Explorer.Next` | src/components/SurahExplorer.jsx:88 | advances by one below the last position; from the last position or beyond it yields the last position; an in-range index stays in range |
| `Explorer.Prev` | src/components/SurahExplorer.jsx:89 | steps back by one above 0, yields 0 otherwise, and is never negative |
| `Explorer.SwipeOf` | src/components/SurahExplorer.jsx:82-86 | an offset below -80 asks for next, above 80 for prev, and anything in [-80, 80] for neither |
| `Explorer.DragEnd` | src/components/SurahExplorer.jsx:82-86 | the two sequential tests equal performing only the single navigation the offset selects, so at most one fires |
| `Explorer.RestoreIndex` | src/components/SurahExplorer.jsx:43-44 | the saved index (0 when absent) is restored when below the ayah count, otherwise 0; a non-negative saved index restores in range |
| `Explorer.UpdateProgress` | src/components/SurahExplorer.jsx:57 | the chapter's entry becomes {index, total}, the key set grows by that chapter only, and every other entry is unchanged |
| `Explorer.RestoreAfterUpdate` | src/components/SurahExplorer.jsx:43-57 | restoring right after saving an in-range position, for the same length, gives that position back |
| `Explorer.CurrentAyah` | src/components/SurahExplorer.jsx:66 | there is a current ayah exactly when data is loaded and the index is within its ayahs, and it is the ayah at that index |
| `Explorer.ToggleFav` | src/components/SurahExplorer.jsx:73-79 | no current ayah: unchanged; otherwise favourite status flips; a removal is an order-preserving subsequence keeping every other entry with its multiplicity; an addition puts the entry first, followed by the newest favourites, with length min(n+1, 500) |
| `Explorer.FavTwiceRestores` | src/components/SurahExplorer.jsx:76-78 | adding and then removing the same favourite restores a list of fewer than 500 entries |
| `Explorer.InitValid` | src/components/SurahExplorer.jsx:8-18 | the first render satisfies the state invariant for well-formed stored progress and favourites |
| `Explorer.SurahsLoaded` | src/components/SurahExplorer.jsx:20-31 | an active success installs the list; a stale success changes nothing; a failure sets "Failed to load Surahs" and leaves the list unchanged |
| `Explorer.BeginLoad` | src/components/SurahExplorer.jsx:33-39 | without a selection nothing happens; otherwise loading is on, the translation is hidden, the current progress map is captured for the restore, and nothing else changes |
| `Explorer.ContentLoaded` | src/components/SurahExplorer.jsx:40-50 | an active success shows the chapter at the position restored from the progress captured when the effect started; a stale success changes nothing; a failure sets "Failed to load Surah content" even when stale; loading ends only while active; only data, position, loading and error can change, and a success keeps the error; the invariant is kept |
| `Explorer.PersistProgress` | src/components/SurahExplorer.jsx:55-58 | with a selected, loaded chapter its record becomes {index, total}; other chapters' records and all other state are unchanged |
| `Explorer.StepNext` | src/components/SurahExplorer.jsx:88 | only the position changes; it advances by one or stays at the last position; the invariant is kept |
| `Explorer.StepPrev` | src/components/SurahExplorer.jsx:89 | only the position changes; it goes back by one or stays at 0; the invariant is kept |
| `Explorer.Swiped` | src/components/SurahExplorer.jsx:82-86 | a drag within ±80 changes nothing; past -80 it is `next`; past 80 it is `prev` |
| `Explorer.ToggleFavorite` | src/components/SurahExplorer.jsx:73-79 | only the favourites change, and not at all without a current ayah; the current ayah's favourite status flips; a removal is an order-preserving subsequence keeping every other entry with its multiplicity; an addition puts the entry first, followed by the newest favourites, with length min(n+1, 500); the invariant is kept |
| `Explorer.Open` | src/components/SurahExplorer.jsx:33-58 | opening a chapter, with the content and progress effects in React order; reopening the chapter already open changes nothing; otherwise the chapter list, query and favourites are untouched, loading ends, the translation is hidden, and a success leaves the error message as it was; a success shows the data at the position restored from the progress before the selection and records that position; a failure keeps the previous data and position and records them under the new chapter's number |
| `Explorer.ReopenResumes` | src/components/SurahExplorer.jsx:33-58 | saving the position, closing and reopening the chapter resumes at the same position whenever the reloaded chapter has enough ayahs |
| `Explorer.SwitchAndReturnResumes` | src/components/SurahExplorer.jsx:33-58 | reading chapter N, opening another chapter M and returning to N resumes N at the saved position, despite the write of N's position under M |
| `Explorer.FailedOpenKeepsStaleRecord` | src/components/SurahExplorer.jsx:33-58 | when a chapter other than the open one fails to load, the previous chapter's position and length stay recorded under its number, and a later visit to it restores that position |
| `KeyedList.RemoveKey` | src/components/SurahExplorer.jsx:76 | no entry with the key remains; the result is a subsequence of the input; every other entry keeps its multiplicity |
| `KeyedList.PrependCapped` | src/components/SurahExplorer.jsx:78 | the new entry comes first, followed by the newest entries of the list, with length min(n+1, cap) |
| `KeyedList.Toggle` | src/components/DailyVerse.jsx:44-51 | key presence flips; a list within the cap stays within it; a removal is an order-preserving subsequence keeping every entry with another key at its multiplicity; an addition puts the entry first, followed by the newest entries, with length min(n+1, cap) |
| `KeyedList.ToggleTwiceRestores` | src/components/DailyVerse.jsx:46-49 | adding an absent key and toggling again restores a list shorter than the cap |
| `KeyedList.ToggleTwiceAtCapDropsOldest` | src/components/DailyVerse.jsx:49 | at the cap, the same double toggle returns the list without its oldest entry |
| `Api.GetAllSurahs` | src/lib/api.js:3-15 | success iff the response is ok; a failure is "Surahs fetch failed"; one summary per record, in order, with exactly the six copied fields |
| `Api.EditionsSplit` | src/lib/api.js:17-18 | the edition list splits into exactly `quran-uthmani`, the translation code (default `en.asad`) and `audio/ar.alafasy` |
| `Api.VerseKeyRoundTrip` | src/lib/api.js:28 | a verse key reads back to the chapter name and verse number it was built from |
| `Api.VerseKeyInjective` | src/lib/api.js:28 | two verse keys are equal iff their names and numbers are equal |
| `Api.ParseVerseKeyExact` | src/lib/api.js:28 | a string the verse-key reader accepts is exactly the key built from the name and number it reads as, so a number with a leading zero is rejected |
| `Api.AyahOf` | src/lib/api.js:25-26 | the optional chain yields an ayah iff the edition, its ayah list and the index all exist, and then it is the ayah at that index |
| `Api.GetSurahWithEditions` | src/lib/api.js:17-35 | a non-ok response rejects before reshaping; the ayahs follow the Arabic edition one for one; translation and audio come from the same index of editions 2 and 3 or are ""; each key reads back to the Arabic edition's name and the verse number |
| `Api.SurahLabel` | src/lib/api.js:50 | the label is the chapter name when present and non-empty, otherwise "Surah" |
| `Api.GetRandomAyahWithEditions` | src/lib/api.js:37-54 | a failed first request rejects with "Random ayah failed", a failed second one with "Ayah editions failed"; success needs both responses ok; the second request is for the number the first returned; fields come from editions 1-3 with "" defaults; the chapter shown is the label of the first edition; the key reads back to the raw chapter name and the verse number |
| `DailyVerse.DateOf` | src/components/DailyVerse.jsx:18 | the date part is the first min(10, length) characters of the clock reading |
| `DailyVerse.CacheKeyRoundTrip` | src/components/DailyVerse.jsx:18-19 | the cache key reads back to its ten-character date and its translation |
| `DailyVerse.CacheKeyInjective` | src/components/DailyVerse.jsx:18-19 | two runs use the same cache key iff they have the same date and the same translation |
| `DailyVerse.CacheKeyHasCalendarDate` | src/components/DailyVerse.jsx:18-19 | assuming the clock reading has the `toISOString()` form YYYY-MM-DDTHH:mm:ss.sssZ, the date in the key is an ISO 8601 calendar date YYYY-MM-DD; the format is taken as given of the clock, not derived |
| `DailyVerse.ToggleBookmark` | src/components/DailyVerse.jsx:44-51 | no verse: unchanged; otherwise bookmark status flips; a removal is an order-preserving subsequence keeping every other entry with its multiplicity; an addition puts the entry first, followed by the newest bookmarks, with length min(n+1, 200) |
| `DailyVerse.BookmarkTwiceRestores` | src/components/DailyVerse.jsx:44-51 | bookmarking and un-bookmarking the same verse restores a list of fewer than 200 entries |
| `DailyVerse.Mount` | src/components/DailyVerse.jsx:17-29 | a request starts iff the key is not cached; on a hit the cached verse is shown and loading ends; on a miss loading is shown; storage is untouched |
| `DailyVerse.Resolve` | src/components/DailyVerse.jsx:26-41 | an active success shows the verse and writes that verse under the key, other entries unchanged; after cleanup the verse, cache and loading are unchanged; a failure sets "Failed to load daily verse" and writes nothing |
| `DailyVerse.SameDayIsCacheHit` | src/components/DailyVerse.jsx:17-34 | after a day's successful load, a later run on the same date and translation is a cache hit showing the same verse, with no request |
| `DailyVerse.ToggleBookmarkStep` | src/components/DailyVerse.jsx:44-51 | only the bookmarks change, and not at all without a verse; the verse's bookmark status flips; a removal is an order-preserving subsequence keeping every other entry with its multiplicity; an addition puts the entry first, followed by the newest bookmarks, with length min(n+1, 200); the 200 cap is kept |

## Left out

- HTTP, transport failures and JSON parsing. A response is an `ok` flag plus the parsed `data`. A `fetch` that rejects takes the same catch path as a non-ok response and is not modelled separately.
- `localStorage` and the `useLocalStorage` hook. The hook's source is not part of this model. Stored values are model values, and the JSON round trip is taken to be the identity. A corrupt stored value is not modelled.
- React scheduling and re-rendering. Each handler or effect is one step. `Explorer.Open` composes the steps of opening a chapter in the order React runs the effects; after other handlers the caller decides when the progress effect runs.
- Audio playback, `framer-motion` animation, the reveal-translation toggle and the 3D scene (`src/components/HeroSpline.jsx`). These are UI or foreign libraries with no state worth proving.
- `src/App.jsx` and `src/components/HeaderNav.jsx`. They only flip the theme, toggle a DOM class and persist the translation choice.
- The percentage widths of the progress bars. They are floating-point `Math.round` display values.
- Explorer.SwipeOf: the drag offset is a `real`, so the `NaN` and ±Infinity a JavaScript number can hold are not modelled. In the code `NaN` fails both comparisons and leaves the position unchanged, and ±Infinity behaves as any offset beyond ±80.
- Reading the clock. The `toISOString()` string is an input.
- Text.Lower: models `toLowerCase` for ASCII letters only. Full Unicode case mapping, including multi-character results, is not modelled. Chapter names from the API are ASCII transliterations, but the typed query is not: in JavaScript a non-ASCII letter can lower-case to an ASCII one (U+212A KELVIN SIGN becomes `k`), so such a query can match a chapter in the browser and not in the model.
- Text.Decimal: models `String(n)` for non-negative integers below 10^21 only. From 10^21 up JavaScript writes exponent form (`String(1e21)` is `"1e+21"`), which the model does not. Chapter, verse and global numbers are counts. Negative numbers, fractions and `NaN` are not modelled.
- JavaScript numbers: the model's `nat` and `int` counts, numbers and indices stand for JavaScript numbers only where those are exact integers, that is up to 2^53, and below 10^21 where they are printed. The app's values (at most 6236 verses) lie well inside that range. Rounding and overflow beyond it are not modelled.
- Explorer.Open: the chapter objects come from the one list fetched on mount, so the model compares chapters by value where React compares the `selected` object by identity. Two distinct objects with equal fields would count as the same chapter.
- Api.GetSurahWithEditions: a missing `text` on an Arabic-edition ayah would be copied as `undefined`. The model represents it as "". A missing and an empty translation or audio text both become "" after `|| ''`, so they are represented alike.
- Api.GetRandomAyahWithEditions: the model assumes that the random-ayah response carries a number. It does not model a response whose `data` lacks one.

=== FILE: api.dfy ===
/** The gateway to the scripture REST API (`src/lib/api.js`). Each request
    is a call of a `fetch` parameter mapping a URL to a response: its `ok`
    flag and its already-parsed `data` member. The functions reshape that
    data into the view models the components render. */
module Api {

  import opened Wrappers
  import opened Text

  const Base := "https://api.alquran.cloud/v1"
  const ArabicEdition := "quran-uthmani"
  const AudioEdition := "audio/ar.alafasy"
  const DefaultTranslation := "en.asad"

  const SurahsFailed := "Surahs fetch failed"
  const EditionsFailed := "Surah editions fetch failed"
  const RandomFailed := "Random ayah failed"
  const AyahEditionsFailed := "Ayah editions failed"

  /** What a settled `fetch` yields once `res.json()` has been read. */
  datatype Response<T> = Response(ok: bool, data: T)

  /** Why a gateway promise rejects: an explicit `throw` on a non-ok
      response, or a TypeError from reading a member of `undefined`. */
  datatype ApiError = FetchFailed(message: string) | Malformed

  /** One record of `GET /surah`; `extra` stands for the members the
      gateway does not copy. */
  datatype RawSurah = RawSurah(
    number: nat, name: string, englishName: string, englishNameTranslation: string,
    revelationType: string, numberOfAyahs: nat, extra: map<string, string>)

  /** A chapter summary as the explorer lists it. */
  datatype Surah = Surah(
    number: nat, name: string, englishName: string, englishNameTranslation: string,
    revelationType: string, numberOfAyahs: nat)

  /** One ayah of one edition. `text` or `audio` is "" where the edition
      has none (a missing member and an empty one read alike after `|| ''`). */
  datatype RawAyah = RawAyah(text: string, numberInSurah: nat, audio: string)

  /** One edition of a chapter; `englishName` and `ayahs` may be absent. */
  datatype RawEdition = RawEdition(englishName: Option<string>, name: string, ayahs: Option<seq<RawAyah>>)

  /** One reading position of the explorer. */
  datatype Ayah = Ayah(arabic: string, translation: string, audio: string, numberInSurah: nat, key: string)

  datatype SurahDetail = SurahDetail(englishName: Option<string>, name: string, ayahs: seq<Ayah>)

  /** The descriptor returned by `GET /ayah/random`. */
  datatype RandomAyah = RandomAyah(number: nat)

  datatype SurahRef = SurahRef(englishName: Option<string>)

  /** One edition of a single verse; `surah` and its name may be absent. */
  datatype RawVerse = RawVerse(text: string, audio: string, numberInSurah: nat, surah: Option<SurahRef>)

  /** The daily verse as the widget shows and caches it. */
  datatype Verse = Verse(arabic: string, translation: string, audio: string, surah: string, numberInSurah: nat, key: string)

  /** How a template literal renders a possibly missing string. */
  function Show(s: Option<string>): string {
    match s
    case None => "undefined"
    case Some(v) => v
  }

  /** The element at position `k`, as destructuring `[ar, tr, au] = data`
      reads it; missing when the array is shorter. */
  function Nth<T>(data: seq<T>, k: nat): Option<T> {
    if k < |data| then Some(data[k]) else None
  }

  // ---------------------------------------------------------------- chapter list

  const SurahsUrl := Base + "/surah"

  predicate Summarizes(raw: RawSurah, s: Surah) {
    && s.number == raw.number
    && s.name == raw.name
    && s.englishName == raw.englishName
    && s.englishNameTranslation == raw.englishNameTranslation
    && s.revelationType == raw.revelationType
    && s.numberOfAyahs == raw.numberOfAyahs
  }

  function Summary(raw: RawSurah): Surah {
    Surah(raw.number, raw.name, raw.englishName, raw.englishNameTranslation, raw.revelationType, raw.numberOfAyahs)
  }

  /** `getAllSurahs`: one summary per record, in order, or the thrown error. */
  function GetAllSurahs(fetch: string -> Response<seq<RawSurah>>): (r: Result<seq<Surah>, ApiError>)
    ensures r.Ok? <==> fetch(SurahsUrl).ok
    ensures r.Err? ==> r.error == FetchFailed(SurahsFailed)
    ensures r.Ok? ==> |r.value| == |fetch(SurahsUrl).data|
    ensures r.Ok? ==> forall i :: 0 <= i < |r.value| ==> Summarizes(fetch(SurahsUrl).data[i], r.value[i])
  {
    var res := fetch(SurahsUrl);
    if !res.ok then Err(FetchFailed(SurahsFailed))
    else Ok(seq(|res.data|, i requires 0 <= i < |res.data| => Summary(res.data[i])))
  }

  // ---------------------------------------------------------------- editions

  function TranslationCode(code: Option<string>): string {
    match code
    case None => DefaultTranslation
    case Some(c) => c
  }

  /** The comma-separated edition list of both edition requests. */
  function Editions(code: Option<string>): string {
    ArabicEdition + "," + TranslationCode(code) + "," + AudioEdition
  }

  /** The edition list names exactly the Arabic text, the requested
      translation (`en.asad` when none is given) and the recitation, in that
      order, whenever the translation code holds no comma. */
  lemma EditionsSplit(code: Option<string>)
    requires ',' !in TranslationCode(code)
    ensures Split(Editions(code), ',') == [ArabicEdition, TranslationCode(code), AudioEdition]
  {
    var t := TranslationCode(code);
    var tail := t + [','] + AudioEdition;
    assert ',' !in ArabicEdition && ',' !in AudioEdition;
    assert Editions(code) == ArabicEdition + [','] + tail;
    SplitJoin(ArabicEdition, ',', tail);
    SplitJoin(t, ',', AudioEdition);
    SplitNoSeparator(AudioEdition, ',');
  }

  // ---------------------------------------------------------------- verse keys

  /** The bookmark identity `"<englishName>:<numberInSurah>"`. */
  function VerseKey(chapter: string, n: nat): string {
    chapter + ":" + Decimal(n)
  }

  /** Reads a verse key back: the text before the last colon and the number
      after it, written as `String(n)` writes it (no leading zero). */
  function ParseVerseKey(k: string): Option<(string, nat)> {
    match SplitLast(k, ':')
    case None => None
    case Some(p) => if IsCanonicalDecimal(p.1) then Some((p.0, ParseDecimal(p.1))) else None
  }

  /** A key is accepted only if it is exactly the key built from what it
      reads back to, so no two spellings of one verse both parse. */
  lemma ParseVerseKeyExact(k: string)
    ensures ParseVerseKey(k).Some? ==>
      k == VerseKey(ParseVerseKey(k).value.0, ParseVerseKey(k).value.1)
  {
    SplitLastSound(k, ':');
    if ParseVerseKey(k).Some? {
      var p := SplitLast(k, ':').value;
      ParseDecimalRoundTrip(p.1);
    }
  }

  /** A verse key determines the chapter name and the verse number it was
      built from, whatever characters the name holds. */
  lemma VerseKeyRoundTrip(chapter: string, n: nat)
    ensures ParseVerseKey(VerseKey(chapter, n)) == Some((chapter, n))
  {
    var d := Decimal(n);
    assert ':' !in d by {
      forall k | 0 <= k < |d| ensures d[k] != ':' {
        assert IsDigit(d[k]);
      }
    }
    assert VerseKey(chapter, n) == chapter + [':'] + d;
    SplitLastJoin(chapter, ':', d);
    DecimalRoundTrip(n);
  }

  /** Two verse keys coincide only for the same chapter and number. */
  lemma VerseKeyInjective(a: string, n: nat, b: string, m: nat)
    ensures VerseKey(a, n) == VerseKey(b, m) <==> a == b && n == m
  {
    VerseKeyRoundTrip(a, n);
    VerseKeyRoundTrip(b, m);
  }

  // ---------------------------------------------------------------- chapter detail

  function SurahUrl(surahNumber: nat, code: Option<string>): string {
    Base + "/surah/" + Decimal(surahNumber) + "/editions/" + Editions(code)
  }

  /** `ed?.ayahs?.[idx]`. */
  function AyahOf(ed: Option<RawEdition>, idx: nat): (r: Option<RawAyah>)
    ensures r.Some? <==> ed.Some? && ed.value.ayahs.Some? && idx < |ed.value.ayahs.value|
    ensures r.Some? ==> r.value == ed.value.ayahs.value[idx]
  {
    match ed
    case None => None
    case Some(e) =>
      match e.ayahs
      case None => None
      case Some(a) => Nth(a, idx)
  }

  /** `tr?.ayahs?.[idx]?.text || ''`. */
  function TextAt(ed: Option<RawEdition>, idx: nat): string {
    match AyahOf(ed, idx)
    case None => ""
    case Some(a) => a.text
  }

  /** `au?.ayahs?.[idx]?.audio || ''`. */
  function AudioAt(ed: Option<RawEdition>, idx: nat): string {
    match AyahOf(ed, idx)
    case None => ""
    case Some(a) => a.audio
  }

  /** The position-wise merge of the three editions, driven by the Arabic one. */
  function Zip(ar: RawEdition, arAyahs: seq<RawAyah>, tr: Option<RawEdition>, au: Option<RawEdition>): seq<Ayah> {
    seq(|arAyahs|, i requires 0 <= i < |arAyahs| =>
      Ayah(arAyahs[i].text, TextAt(tr, i), AudioAt(au, i), arAyahs[i].numberInSurah,
           VerseKey(Show(ar.englishName), arAyahs[i].numberInSurah)))
  }

  /** `getSurahWithEditions`: a non-ok response rejects before any
      reshaping; otherwise the ayahs follow the Arabic edition one for one,
      the translation and audio come from the same position of the second
      and third editions or are "", and every key names the Arabic
      edition's chapter and the verse number. */
  function GetSurahWithEditions(surahNumber: nat, code: Option<string>, fetch: string -> Response<seq<RawEdition>>)
    : (r: Result<SurahDetail, ApiError>)
    ensures !fetch(SurahUrl(surahNumber, code)).ok ==> r == Err(FetchFailed(EditionsFailed))
    ensures r.Ok? <==>
      var res := fetch(SurahUrl(surahNumber, code));
      res.ok && |res.data| > 0 && res.data[0].ayahs.Some?
    ensures r.Ok? ==>
      var data := fetch(SurahUrl(surahNumber, code)).data;
      var ar := data[0];
      var ayahs := ar.ayahs.value;
      && r.value.englishName == ar.englishName
      && r.value.name == ar.name
      && |r.value.ayahs| == |ayahs|
      && forall i :: 0 <= i < |ayahs| ==>
        && r.value.ayahs[i].arabic == ayahs[i].text
        && r.value.ayahs[i].numberInSurah == ayahs[i].numberInSurah
        && (r.value.ayahs[i].translation != "" ==>
              1 < |data| && data[1].ayahs.Some? && i < |data[1].ayahs.value|
              && r.value.ayahs[i].translation == data[1].ayahs.value[i].text)
        && (1 < |data| && data[1].ayahs.Some? && i < |data[1].ayahs.value| ==>
              r.value.ayahs[i].translation == data[1].ayahs.value[i].text)
        && (r.value.ayahs[i].audio != "" ==>
              2 < |data| && data[2].ayahs.Some? && i < |data[2].ayahs.value|
              && r.value.ayahs[i].audio == data[2].ayahs.value[i].audio)
        && (2 < |data| && data[2].ayahs.Some? && i < |data[2].ayahs.value| ==>
              r.value.ayahs[i].audio == data[2].ayahs.value[i].audio)
        && ParseVerseKey(r.value.ayahs[i].key) == Some((Show(ar.englishName), ayahs[i].numberInSurah))
  {
    var res := fetch(SurahUrl(surahNumber, code));
    if !res.ok then Err(FetchFailed(EditionsFailed))
    else if |res.data| == 0 then Err(Malformed)
    else
      var ar := res.data[0];
      match ar.ayahs
      case None => Err(Malformed)
      case Some(arAyahs) =>
        var ayahs := Zip(ar, arAyahs, Nth(res.data, 1), Nth(res.data, 2));
        assert forall i :: 0 <= i < |ayahs| ==>
          ParseVerseKey(ayahs[i].key) == Some((Show(ar.englishName), arAyahs[i].numberInSurah)) by {
          forall i | 0 <= i < |ayahs| {
            VerseKeyRoundTrip(Show(ar.englishName), arAyahs[i].numberInSurah);
          }
        }
        Ok(SurahDetail(ar.englishName, ar.name, ayahs))
  }

  // ---------------------------------------------------------------- random verse

  const RandomUrl := Base + "/ayah/random"

  function AyahUrl(globalNumber: nat, code: Option<string>): string {
    Base + "/ayah/" + Decimal(globalNumber) + "/editions/" + Editions(code)
  }

  /** `ar.surah?.englishName`. */
  function SurahNameOf(v: RawVerse): Option<string> {
    match v.surah
    case None => None
    case Some(s) => s.englishName
  }

  /** `ar.surah?.englishName || 'Surah'`. */
  function SurahLabel(v: RawVerse): (r: string)
    ensures r != ""
    ensures r == "Surah" || SurahNameOf(v) == Some(r)
    ensures SurahNameOf(v).Some? && SurahNameOf(v).value != "" ==> r == SurahNameOf(v).value
  {
    match SurahNameOf(v)
    case Some(n) => if n != "" then n else "Surah"
    case None => "Surah"
  }

  /** `getRandomAyahWithEditions`: both responses must be ok; the second
      request is for the verse number the first one returned. */
  function GetRandomAyahWithEditions(
    code: Option<string>,
    fetchRandom: string -> Response<RandomAyah>,
    fetchAyah: string -> Response<seq<RawVerse>>): (r: Result<Verse, ApiError>)
    ensures !fetchRandom(RandomUrl).ok ==> r == Err(FetchFailed(RandomFailed))
    ensures fetchRandom(RandomUrl).ok && !fetchAyah(AyahUrl(fetchRandom(RandomUrl).data.number, code)).ok ==>
      r == Err(FetchFailed(AyahEditionsFailed))
    ensures r.Ok? <==>
      var first := fetchRandom(RandomUrl);
      first.ok &&
      var second := fetchAyah(AyahUrl(first.data.number, code));
      second.ok && |second.data| > 0
    ensures r.Ok? ==>
      var data := fetchAyah(AyahUrl(fetchRandom(RandomUrl).data.number, code)).data;
      && r.value.arabic == data[0].text
      && r.value.numberInSurah == data[0].numberInSurah
      && r.value.translation == (if 1 < |data| then data[1].text else "")
      && r.value.audio == (if 2 < |data| then data[2].audio else "")
      && r.value.surah != ""
      && r.value.surah == SurahLabel(data[0])
      && ParseVerseKey(r.value.key) == Some((Show(SurahNameOf(data[0])), data[0].numberInSurah))
  {
    var first := fetchRandom(RandomUrl);
    if !first.ok then Err(FetchFailed(RandomFailed))
    else
      var res := fetchAyah(AyahUrl(first.data.number, code));
      if !res.ok then Err(FetchFailed(AyahEditionsFailed))
      else if |res.data| == 0 then Err(Malformed)
      else
        var ar := res.data[0];
        var tr := Nth(res.data, 1);
        var au := Nth(res.data, 2);
        VerseKeyRoundTrip(Show(SurahNameOf(ar)), ar.numberInSurah);
        Ok(Verse(
          ar.text,
          if tr.Some? then tr.value.text else "",
          if au.Some? then au.value.audio else "",
          SurahLabel(ar),
          ar.numberInSurah,
          VerseKey(Show(SurahNameOf(ar)), ar.numberInSurah)))
  }
}

=== FILE: daily_verse.dfy ===
/** The daily-verse widget (`src/components/DailyVerse.jsx`): a verse per
    calendar day and translation, cached in local storage under a
    date-scoped key, fetched on a cache miss, and bookmarkable. The clock
    reading (`new Date().toISOString()`), the storage contents and the
    settled gateway promise are inputs. */
module DailyVerse {

  import opened Wrappers
  import opened Seqs
  import opened Text
  import opened KeyedList
  import opened Api

  const CachePrefix := "ps_daily_"
  const BookmarksCap: nat := 200
  const LoadError := "Failed to load daily verse"

  // ---------------------------------------------------------------- cache key

  /** `now.slice(0, 10)`: at most the first ten characters. */
  function DateOf(now: string): (d: string)
    ensures |d| == Min(10, |now|) && d == now[..|d|]
  {
    now[..Min(10, |now|)]
  }

  /** `` `ps_daily_${todayKey}_${translation}` ``. */
  function CacheKey(now: string, translation: string): string {
    CachePrefix + DateOf(now) + "_" + translation
  }

  /** Reads a daily cache key back into its ten-character date and its
      translation code. */
  function ParseCacheKey(k: string): Option<(string, string)> {
    var n := |CachePrefix|;
    if |k| >= n + 11 && k[..n] == CachePrefix && k[n + 10] == '_' then
      Some((k[n..n + 10], k[n + 11..]))
    else None
  }

  /** Once the clock string has its ten date characters, the key determines
      the date and the translation it was built from. */
  lemma CacheKeyRoundTrip(now: string, translation: string)
    requires |now| >= 10
    ensures ParseCacheKey(CacheKey(now, translation)) == Some((DateOf(now), translation))
  {
    var k := CacheKey(now, translation);
    var n := |CachePrefix|;
    assert k[..n] == CachePrefix;
    assert k[n..n + 10] == DateOf(now);
    assert k[n + 10] == '_';
    assert k[n + 11..] == translation;
  }

  /** Two runs share a cache entry exactly when they fall on the same date
      and use the same translation. */
  lemma CacheKeyInjective(now1: string, t1: string, now2: string, t2: string)
    requires |now1| >= 10 && |now2| >= 10
    ensures CacheKey(now1, t1) == CacheKey(now2, t2) <==> DateOf(now1) == DateOf(now2) && t1 == t2
  {
    CacheKeyRoundTrip(now1, t1);
    CacheKeyRoundTrip(now2, t2);
  }

  /** An ISO 8601 calendar date `YYYY-MM-DD`. */
  predicate IsCalendarDate(d: string) {
    && |d| == 10
    && IsDigits(d[..4]) && d[4] == '-' && IsDigits(d[5..7]) && d[7] == '-' && IsDigits(d[8..])
    && 1 <= ParseDecimal(d[5..7]) <= 12
    && 1 <= ParseDecimal(d[8..]) <= 31
  }

  /** The `YYYY-MM-DDTHH:mm:ss.sssZ` form `toISOString` produces for the
      years 0000 to 9999. */
  predicate IsIsoTimestamp(t: string) {
    && |t| == 24
    && IsCalendarDate(t[..10])
    && t[10] == 'T' && IsDigits(t[11..13]) && t[13] == ':' && IsDigits(t[14..16])
    && t[16] == ':' && IsDigits(t[17..19]) && t[19] == '.' && IsDigits(t[20..23]) && t[23] == 'Z'
  }

  /** For a clock reading in ISO form, the date part of the cache key is an
      ISO calendar date. */
  lemma CacheKeyHasCalendarDate(now: string, translation: string)
    requires IsIsoTimestamp(now)
    ensures var p := ParseCacheKey(CacheKey(now, translation));
      p.Some? && IsCalendarDate(p.value.0) && p.value.1 == translation
  {
    CacheKeyRoundTrip(now, translation);
  }

  // ---------------------------------------------------------------- bookmarks

  /** `isBookmarked`. */
  predicate IsBookmarked(bookmarks: seq<Entry>, ayah: Option<Verse>) {
    ayah.Some? && Has(bookmarks, ayah.value.key)
  }

  function BookmarkOf(v: Verse): Entry {
    Entry(v.key, v.arabic, v.translation, v.surah, v.numberInSurah)
  }

  /** `toggleBookmark`: nothing without a verse; otherwise the bookmark
      status of its key flips, a removal keeps the other entries in order,
      and an addition puts the entry first under the 200 cap. */
  function ToggleBookmark(bookmarks: seq<Entry>, ayah: Option<Verse>): (r: seq<Entry>)
    ensures ayah.None? ==> r == bookmarks
    ensures ayah.Some? ==> (IsBookmarked(r, ayah) <==> !IsBookmarked(bookmarks, ayah))
    ensures |bookmarks| <= BookmarksCap ==> |r| <= BookmarksCap
    ensures |r| <= |bookmarks| + 1
    ensures IsBookmarked(bookmarks, ayah) ==>
      && IsSubsequence(r, bookmarks)
      && (forall e: Entry :: e.key != ayah.value.key ==> multiset(r)[e] == multiset(bookmarks)[e])
    ensures ayah.Some? && !IsBookmarked(bookmarks, ayah) ==>
      |r| == Min(|bookmarks| + 1, BookmarksCap) && r[0] == BookmarkOf(ayah.value) && r[1..] == bookmarks[..|r| - 1]
  {
    match ayah
    case None => bookmarks
    case Some(v) => Toggle(bookmarks, BookmarkOf(v), BookmarksCap)
  }

  /** Bookmarking a verse and un-bookmarking it again restores a list that
      had room for it. */
  lemma BookmarkTwiceRestores(bookmarks: seq<Entry>, v: Verse)
    requires !Has(bookmarks, v.key) && |bookmarks| < BookmarksCap
    ensures ToggleBookmark(ToggleBookmark(bookmarks, Some(v)), Some(v)) == bookmarks
  {
    ToggleTwiceRestores(bookmarks, BookmarkOf(v), BookmarksCap);
  }

  // ---------------------------------------------------------------- component state

  /** The widget's state and the storage it reads: `cache` holds the
      `ps_daily_*` entries, each the stored form of a verse. */
  datatype State = State(
    loading: bool,
    ayah: Option<Verse>,
    error: string,
    bookmarks: seq<Entry>,
    cache: map<string, Verse>)

  function Init(bookmarks: seq<Entry>, cache: map<string, Verse>): State {
    State(true, None, "", bookmarks, cache)
  }

  /** The outcome of running the effect: the new state and whether a
      request to the gateway was started. */
  datatype Mounted = Mounted(state: State, fetchIssued: bool)

  /** The effect's synchronous part for the clock reading `now`. On a cache
      hit the stored verse is shown, loading ends and no request starts; on
      a miss loading is shown and a request starts. Nothing else changes. */
  function Mount(s: State, now: string, translation: string): (m: Mounted)
    ensures m.fetchIssued <==> CacheKey(now, translation) !in s.cache
    ensures !m.fetchIssued ==>
      m.state.ayah == Some(s.cache[CacheKey(now, translation)]) && !m.state.loading
    ensures m.fetchIssued ==> m.state.loading && m.state.ayah == s.ayah
    ensures m.state.cache == s.cache && m.state.bookmarks == s.bookmarks && m.state.error == s.error
  {
    var key := CacheKey(now, translation);
    if key in s.cache then Mounted(s.(ayah := Some(s.cache[key]), loading := false), false)
    else Mounted(s.(loading := true), true)
  }

  /** The effect's asynchronous part once `getRandomAyahWithEditions`
      settles. While active, a success shows the verse and stores that very
      verse under `key`, leaving every other entry alone; after cleanup a
      result changes neither the verse, the cache nor loading; a failure
      sets the error and writes nothing. */
  function Resolve(s: State, key: string, result: Result<Verse, ApiError>, active: bool): (r: State)
    ensures result.Ok? && active ==>
      && key in r.cache && r.ayah == Some(r.cache[key]) && r.ayah == Some(result.value)
      && r.cache.Keys == s.cache.Keys + {key}
      && (forall k :: k in s.cache && k != key ==> r.cache[k] == s.cache[k])
      && !r.loading
    ensures !active ==> r.ayah == s.ayah && r.cache == s.cache && r.loading == s.loading
    ensures result.Err? ==> r.error == LoadError && r.cache == s.cache && r.ayah == s.ayah
    ensures result.Err? && active ==> !r.loading
    ensures result.Ok? ==> r.error == s.error
    ensures r.bookmarks == s.bookmarks
  {
    var settled :=
      match result
      case Ok(v) => if active then s.(ayah := Some(v), cache := s.cache[key := v]) else s
      case Err(_) => s.(error := LoadError);
    if active then settled.(loading := false) else settled
  }

  /** A day's first successful load makes every later run on the same date
      with the same translation a cache hit showing the same verse, even in
      a freshly mounted widget over the same storage. */
  lemma SameDayIsCacheHit(s: State, now: string, later: string, translation: string, v: Verse, bookmarks: seq<Entry>)
    requires |now| >= 10 && DateOf(later) == DateOf(now)
    ensures
      var first := Mount(s, now, translation);
      var loaded := Resolve(first.state, CacheKey(now, translation), Ok(v), true);
      var second := Mount(Init(bookmarks, loaded.cache), later, translation);
      !second.fetchIssued && second.state.ayah == Some(v) && !second.state.loading
  {
    assert CacheKey(later, translation) == CacheKey(now, translation);
  }

  /** The bookmark button. */
  function ToggleBookmarkStep(s: State): (r: State)
    ensures |s.bookmarks| <= BookmarksCap ==> |r.bookmarks| <= BookmarksCap
    ensures r == s.(bookmarks := r.bookmarks)
    ensures s.ayah.None? ==> r == s
    ensures s.ayah.Some? ==> (IsBookmarked(r.bookmarks, s.ayah) <==> !IsBookmarked(s.bookmarks, s.ayah))
    ensures IsBookmarked(s.bookmarks, s.ayah) ==>
      && IsSubsequence(r.bookmarks, s.bookmarks)
      && (forall e: Entry :: e.key != s.ayah.value.key ==> multiset(r.bookmarks)[e] == multiset(s.bookmarks)[e])
    ensures s.ayah.Some? && !IsBookmarked(s.bookmarks, s.ayah) ==>
      && |r.bookmarks| == Min(|s.bookmarks| + 1, BookmarksCap)
      && r.bookmarks[0] == BookmarkOf(s.ayah.value)
      && r.bookmarks[1..] == s.bookmarks[..|r.bookmarks| - 1]
  {
    s.(bookmarks := ToggleBookmark(s.bookmarks, s.ayah))
  }
}

=== FILE: explorer.dfy ===
/** The chapter explorer (`src/components/SurahExplorer.jsx`): chapter
    search, reading-position navigation, saved progress and favourites.
    Each handler and effect is one pure step on an explicit `State`; the
    `active` flag of an effect and the settled gateway promise are inputs. */
module Explorer {

  import opened Wrappers
  import opened Seqs
  import opened Text
  import opened KeyedList
  import opened Api

  /** Horizontal drag distance, in pixels, beyond which a swipe navigates. */
  const SwipeThreshold: real := 80.0
  const FavoritesCap: nat := 500
  const SurahsError := "Failed to load Surahs"
  const ContentError := "Failed to load Surah content"

  /** The `ps_progress` record of one chapter. */
  datatype Progress = Progress(index: int, total: nat)

  // ---------------------------------------------------------------- search

  /** `query.trim().toLowerCase()`. */
  function NormalizeQuery(query: string): (q: string)
    ensures q == "" <==> IsBlank(query)
  {
    TrimEmptyIffBlank(query);
    Lower(Trim(query))
  }

  /** The search test of one chapter against a normalized query. */
  predicate Matches(s: Surah, q: string) {
    Contains(Lower(s.englishName), q) || Contains(Decimal(s.number), q)
  }

  function MatchesQuery(q: string): Surah -> bool {
    (s: Surah) => Matches(s, q)
  }

  /** The `filtered` list: everything for a blank query, otherwise exactly
      the matching chapters, in list order, each as often as listed. */
  function Filtered(surahs: seq<Surah>, query: string): (r: seq<Surah>)
    ensures IsBlank(query) ==> r == surahs
    ensures IsSubsequence(r, surahs)
    ensures !IsBlank(query) ==> forall s: Surah ::
      multiset(r)[s] == if Matches(s, NormalizeQuery(query)) then multiset(surahs)[s] else 0
  {
    var q := NormalizeQuery(query);
    if q == "" then
      assert IsSubsequence(surahs, surahs) by { SubsequenceRefl(surahs); }
      surahs
    else
      Filter(surahs, MatchesQuery(q))
  }

  /** The search ignores the letter case of the query. */
  lemma FilteredIgnoresQueryCase(surahs: seq<Surah>, query: string)
    ensures Filtered(surahs, Lower(query)) == Filtered(surahs, query)
  {
    TrimCommutesWithLower(query);
    LowerIdempotent(Trim(query));
  }

  /** For a non-blank query a listed chapter is shown exactly when the
      normalized query occurs in its lower-cased English name or in its
      decimal number. */
  lemma FilteredKeepsExactlyMatches(surahs: seq<Surah>, query: string, s: Surah)
    requires !IsBlank(query) && s in surahs
    ensures s in Filtered(surahs, query) <==>
      Occurs(Lower(s.englishName), NormalizeQuery(query)) || Occurs(Decimal(s.number), NormalizeQuery(query))
  {
    var q := NormalizeQuery(query);
    var name := Lower(s.englishName);
    var number := Decimal(s.number);
    FilteredMembership(surahs, query, s);
    assert Matches(s, q) <==> Contains(name, q) || Contains(number, q);
    ContainsIff(name, q);
    ContainsIff(number, q);
  }

  lemma FilteredMembership(surahs: seq<Surah>, query: string, s: Surah)
    requires !IsBlank(query) && s in surahs
    ensures s in Filtered(surahs, query) <==> Matches(s, NormalizeQuery(query))
  {
    var r := Filtered(surahs, query);
    assert multiset(surahs)[s] > 0;
    assert s in r <==> multiset(r)[s] > 0;
  }

  // ---------------------------------------------------------------- navigation

  /** `surahData?.ayahs?.length || 1`. */
  function NavLength(data: Option<SurahDetail>): (n: nat)
    ensures n >= 1
    ensures data.Some? && |data.value.ayahs| > 0 ==> n == |data.value.ayahs|
    ensures !(data.Some? && |data.value.ayahs| > 0) ==> n == 1
  {
    if data.Some? && |data.value.ayahs| > 0 then |data.value.ayahs| else 1
  }

  /** `next`: one step forward, stopping at the last position. */
  function Next(i: int, data: Option<SurahDetail>): (r: int)
    ensures r <= NavLength(data) - 1
    ensures 0 <= i < NavLength(data) ==> 0 <= r < NavLength(data)
    ensures i < NavLength(data) - 1 ==> r == i + 1
    ensures i >= NavLength(data) - 1 ==> r == NavLength(data) - 1
  {
    if i + 1 <= NavLength(data) - 1 then i + 1 else NavLength(data) - 1
  }

  /** `prev`: one step back, stopping at position 0. */
  function Prev(i: int): (r: int)
    ensures r >= 0
    ensures i > 0 ==> r == i - 1
    ensures i <= 0 ==> r == 0
  {
    if i - 1 >= 0 then i - 1 else 0
  }

  datatype Swipe = Advance | Retreat | Stay

  /** Which navigation a drag offset asks for. */
  function SwipeOf(offset: real): (w: Swipe)
    ensures w == Advance <==> offset < -SwipeThreshold
    ensures w == Retreat <==> offset > SwipeThreshold
    ensures w == Stay <==> -SwipeThreshold <= offset <= SwipeThreshold
  {
    if offset < -SwipeThreshold then Advance
    else if offset > SwipeThreshold then Retreat
    else Stay
  }

  /** `onDragEnd` as written: two independent tests applied one after the
      other. It agrees with performing the single navigation `SwipeOf`
      selects, so at most one of `next` and `prev` takes effect. */
  function DragEnd(offset: real, i: int, data: Option<SurahDetail>): (r: int)
    ensures r == match SwipeOf(offset)
                 case Advance => Next(i, data)
                 case Retreat => Prev(i)
                 case Stay => i
  {
    var afterNext := if offset < -SwipeThreshold then Next(i, data) else i;
    if offset > SwipeThreshold then Prev(afterNext) else afterNext
  }

  // ---------------------------------------------------------------- progress

  /** `progress?.[n]?.index || 0`. */
  function SavedIndex(progress: map<nat, Progress>, n: nat): int {
    if n in progress then progress[n].index else 0
  }

  /** The restored position: the saved index when it lies below the ayah
      count, 0 otherwise. A non-negative saved index always restores to a
      valid position. */
  function RestoreIndex(progress: map<nat, Progress>, n: nat, len: nat): (r: int)
    ensures n in progress && progress[n].index < len ==> r == progress[n].index
    ensures !(n in progress && progress[n].index < len) ==> r == 0
    ensures SavedIndex(progress, n) >= 0 ==> 0 <= r && (r < len || r == 0)
  {
    var saved := SavedIndex(progress, n);
    if saved < len then saved else 0
  }

  /** `{...progress, [n]: {index, total}}`: the chapter's record is replaced
      and every other chapter's record is kept. */
  function UpdateProgress(progress: map<nat, Progress>, n: nat, index: int, total: nat): (r: map<nat, Progress>)
    ensures r.Keys == progress.Keys + {n}
    ensures r[n] == Progress(index, total)
    ensures forall m :: m in progress && m != n ==> r[m] == progress[m]
  {
    progress[n := Progress(index, total)]
  }

  /** Saving a position and restoring it for a chapter of the same length
      gives the position back. */
  lemma RestoreAfterUpdate(progress: map<nat, Progress>, n: nat, i: int, len: nat)
    requires 0 <= i < len
    ensures RestoreIndex(UpdateProgress(progress, n, i, len), n, len) == i
  {
  }

  // ---------------------------------------------------------------- favourites

  /** `surahData?.ayahs?.[index]`. */
  function CurrentAyah(data: Option<SurahDetail>, index: int): (r: Option<Ayah>)
    ensures r.Some? <==> data.Some? && 0 <= index < |data.value.ayahs|
    ensures r.Some? ==> r.value == data.value.ayahs[index]
  {
    if data.Some? && 0 <= index < |data.value.ayahs| then Some(data.value.ayahs[index]) else None
  }

  /** `isFav`. */
  predicate IsFav(favorites: seq<Entry>, cur: Option<Ayah>) {
    cur.Some? && Has(favorites, cur.value.key)
  }

  function FavoriteOf(a: Ayah, surahName: string): Entry {
    Entry(a.key, a.arabic, a.translation, surahName, a.numberInSurah)
  }

  /** `toggleFav`: nothing without a current ayah; otherwise the favourite
      status of its key flips, a removal keeps the other entries in order,
      and an addition puts the entry first under the 500 cap. */
  function ToggleFav(favorites: seq<Entry>, cur: Option<Ayah>, surahName: string): (r: seq<Entry>)
    ensures cur.None? ==> r == favorites
    ensures cur.Some? ==> (IsFav(r, cur) <==> !IsFav(favorites, cur))
    ensures |favorites| <= FavoritesCap ==> |r| <= FavoritesCap
    ensures |r| <= |favorites| + 1
    ensures IsFav(favorites, cur) ==>
      && IsSubsequence(r, favorites)
      && (forall e: Entry :: e.key != cur.value.key ==> multiset(r)[e] == multiset(favorites)[e])
    ensures cur.Some? && !IsFav(favorites, cur) ==>
      |r| == Min(|favorites| + 1, FavoritesCap) && r[0] == FavoriteOf(cur.value, surahName) && r[1..] == favorites[..|r| - 1]
  {
    match cur
    case None => favorites
    case Some(a) => Toggle(favorites, FavoriteOf(a, surahName), FavoritesCap)
  }

  /** Adding a favourite and removing it again restores a list that had
      room for it. */
  lemma FavTwiceRestores(favorites: seq<Entry>, a: Ayah, surahName: string)
    requires !Has(favorites, a.key) && |favorites| < FavoritesCap
    ensures ToggleFav(ToggleFav(favorites, Some(a), surahName), Some(a), surahName) == favorites
  {
    ToggleTwiceRestores(favorites, FavoriteOf(a, surahName), FavoritesCap);
  }

  // ---------------------------------------------------------------- component state

  datatype State = State(
    surahs: seq<Surah>,
    query: string,
    selected: Option<Surah>,
    data: Option<SurahDetail>,
    index: int,
    showTranslation: bool,  // `reveal`
    loading: bool,
    error: string,
    progress: map<nat, Progress>,
    favorites: seq<Entry>,
    loadProgress: map<nat, Progress>)  // `progress` as the latest content effect captured it

  /** The first render, with the stored progress and favourites. */
  function Init(progress: map<nat, Progress>, favorites: seq<Entry>): State {
    State([], "", None, None, 0, false, false, "", progress, favorites, progress)
  }

  predicate NonNegativeIndices(progress: map<nat, Progress>) {
    forall n :: n in progress ==> progress[n].index >= 0
  }

  /** What every reachable state satisfies: the position is within the
      navigable range, saved positions (stored and captured) are
      non-negative, favourites fit under the cap. */
  predicate Valid(s: State) {
    && 0 <= s.index < NavLength(s.data)
    && NonNegativeIndices(s.progress)
    && NonNegativeIndices(s.loadProgress)
    && |s.favorites| <= FavoritesCap
  }

  lemma InitValid(progress: map<nat, Progress>, favorites: seq<Entry>)
    requires NonNegativeIndices(progress)
    requires |favorites| <= FavoritesCap
    ensures Valid(Init(progress, favorites))
  {
  }

  /** The chapter-list effect once `getAllSurahs` settles: the list is taken
      only while the effect is active; a failure always sets the error and
      leaves the list as it was. */
  function SurahsLoaded(s: State, result: Result<seq<Surah>, ApiError>, active: bool): (r: State)
    ensures Valid(s) ==> Valid(r)
    ensures result.Ok? && active ==> r == s.(surahs := result.value)
    ensures result.Ok? && !active ==> r == s
    ensures result.Err? ==> r == s.(error := SurahsError)
  {
    match result
    case Ok(list) => if active then s.(surahs := list) else s
    case Err(_) => s.(error := SurahsError)
  }

  function Select(s: State, surah: Surah): State {
    s.(selected := Some(surah))
  }

  function Close(s: State): State {
    s.(selected := None)
  }

  /** The start of the chapter-content effect: loading shown, translation
      hidden, and the progress map of this render captured for the restore
      when the request settles; nothing happens without a selection. */
  function BeginLoad(s: State): (r: State)
    ensures Valid(s) ==> Valid(r)
    ensures s.selected.None? ==> r == s
    ensures s.selected.Some? ==> r.loading && !r.showTranslation && r.loadProgress == s.progress
    ensures r == s.(loading := r.loading, showTranslation := r.showTranslation, loadProgress := r.loadProgress)
  {
    if s.selected.None? then s else s.(loading := true, showTranslation := false, loadProgress := s.progress)
  }

  /** The chapter-content effect once `getSurahWithEditions` settles for
      `requested`. An active success shows the chapter at its restored
      position; a stale success changes nothing; a failure sets the error
      whether or not the effect is still active; loading ends only while
      active. The position is restored from the progress map captured when
      the effect started, not from the one current at settle time. */
  function ContentLoaded(s: State, requested: Surah, result: Result<SurahDetail, ApiError>, active: bool): (r: State)
    ensures Valid(s) ==> Valid(r)
    ensures result.Ok? && active ==>
      && r.data == Some(result.value)
      && r.index == RestoreIndex(s.loadProgress, requested.number, |result.value.ayahs|)
      && !r.loading
    ensures result.Ok? && !active ==> r == s
    ensures result.Err? ==>
      && r.error == ContentError
      && r.data == s.data && r.index == s.index
      && r.loading == (s.loading && !active)
    ensures r.progress == s.progress && r.favorites == s.favorites && r.selected == s.selected
    ensures r == s.(data := r.data, index := r.index, loading := r.loading, error := r.error)
    ensures result.Ok? ==> r.error == s.error
  {
    var settled :=
      match result
      case Ok(d) =>
        if active then s.(data := Some(d), index := RestoreIndex(s.loadProgress, requested.number, |d.ayahs|))
        else s
      case Err(_) => s.(error := ContentError);
    if active then settled.(loading := false) else settled
  }

  /** The progress effect: with a chapter selected and loaded, the current
      position and the ayah count are written under the chapter's number
      and every other chapter's record is kept. */
  function PersistProgress(s: State): (r: State)
    ensures Valid(s) ==> Valid(r)
    ensures s.selected.Some? && s.data.Some? ==>
      && r.progress.Keys == s.progress.Keys + {s.selected.value.number}
      && r.progress[s.selected.value.number] == Progress(s.index, |s.data.value.ayahs|)
      && forall m :: m in s.progress && m != s.selected.value.number ==> r.progress[m] == s.progress[m]
    ensures s.selected.None? || s.data.None? ==> r == s
    ensures r == s.(progress := r.progress)
  {
    if s.selected.Some? && s.data.Some? then
      s.(progress := UpdateProgress(s.progress, s.selected.value.number, s.index, |s.data.value.ayahs|))
    else s
  }

  /** The `next` button or a left swipe. */
  function StepNext(s: State): (r: State)
    ensures Valid(s) ==> Valid(r)
    ensures r == s.(index := r.index)
    ensures Valid(s) ==>
      r.index == s.index + 1 || (r.index == s.index && s.index == NavLength(s.data) - 1)
  {
    s.(index := Next(s.index, s.data))
  }

  /** The `prev` button or a right swipe. */
  function StepPrev(s: State): (r: State)
    ensures Valid(s) ==> Valid(r)
    ensures r == s.(index := r.index)
    ensures r.index == s.index - 1 || (r.index == 0 && s.index <= 0)
  {
    s.(index := Prev(s.index))
  }

  /** A drag released at horizontal `offset`. */
  function Swiped(s: State, offset: real): (r: State)
    ensures Valid(s) ==> Valid(r)
    ensures -SwipeThreshold <= offset <= SwipeThreshold ==> r == s
    ensures r == s.(index := r.index)
    ensures offset < -SwipeThreshold ==> r == StepNext(s)
    ensures offset > SwipeThreshold ==> r == StepPrev(s)
  {
    s.(index := DragEnd(offset, s.index, s.data))
  }

  /** The star button, which is only on screen while a chapter is selected. */
  function ToggleFavorite(s: State): (r: State)
    requires s.selected.Some?
    ensures Valid(s) ==> Valid(r)
    ensures r == s.(favorites := r.favorites)
    ensures CurrentAyah(s.data, s.index).None? ==> r == s
    ensures CurrentAyah(s.data, s.index).Some? ==>
      (IsFav(r.favorites, CurrentAyah(s.data, s.index)) <==> !IsFav(s.favorites, CurrentAyah(s.data, s.index)))
    ensures IsFav(s.favorites, CurrentAyah(s.data, s.index)) ==>
      var key := CurrentAyah(s.data, s.index).value.key;
      && IsSubsequence(r.favorites, s.favorites)
      && (forall e: Entry :: e.key != key ==> multiset(r.favorites)[e] == multiset(s.favorites)[e])
    ensures CurrentAyah(s.data, s.index).Some? && !IsFav(s.favorites, CurrentAyah(s.data, s.index)) ==>
      var fav := FavoriteOf(CurrentAyah(s.data, s.index).value, s.selected.value.englishName);
      && |r.favorites| == Min(|s.favorites| + 1, FavoritesCap)
      && r.favorites[0] == fav
      && r.favorites[1..] == s.favorites[..|r.favorites| - 1]
  {
    s.(favorites := ToggleFav(s.favorites, CurrentAyah(s.data, s.index), s.selected.value.englishName))
  }

  /** Opening `surah` and letting its request settle while still active,
      with the effects in the order React runs them: after the selection
      the content effect starts, then the progress effect writes the
      position still on screen under the new chapter's number; when the
      request settles the content is shown and the progress effect runs
      again. A success restores from the progress as it was before the
      selection, so that stale write never decides the position; a failure
      leaves the previous chapter on screen and its position recorded
      under the new chapter's number. Clicking the chapter that is already
      open hands React the same object, so the update is skipped, neither
      effect runs and nothing changes. */
  function Open(s: State, surah: Surah, result: Result<SurahDetail, ApiError>): (r: State)
    ensures Valid(s) ==> Valid(r)
    ensures r == s.(selected := r.selected, data := r.data, index := r.index, loading := r.loading,
                    showTranslation := r.showTranslation, error := r.error, progress := r.progress,
                    loadProgress := r.loadProgress)
    ensures r.selected == Some(surah) && r.favorites == s.favorites
    ensures result.Ok? ==> r.error == s.error
    ensures s.selected == Some(surah) ==> r == s
    ensures s.selected != Some(surah) ==> !r.loading && !r.showTranslation && r.loadProgress == s.progress
    ensures s.selected != Some(surah) && result.Ok? ==>
      && r.data == Some(result.value)
      && r.index == RestoreIndex(s.progress, surah.number, |result.value.ayahs|)
      && r.progress == UpdateProgress(s.progress, surah.number, r.index, |result.value.ayahs|)
    ensures s.selected != Some(surah) && result.Err? ==>
      && r.error == ContentError && r.data == s.data && r.index == s.index
      && (s.data.Some? ==> r.progress == UpdateProgress(s.progress, surah.number, s.index, |s.data.value.ayahs|))
      && (s.data.None? ==> r.progress == s.progress)
  {
    if s.selected == Some(surah) then s
    else
      var started := PersistProgress(BeginLoad(Select(s, surah)));
      PersistProgress(ContentLoaded(started, surah, result, true))
  }

  /** Reading-position persistence end to end: after the position of a
      loaded chapter is saved, closing and reopening that chapter with at
      least as many ayahs resumes at the same position. */
  lemma ReopenResumes(s: State, surah: Surah, again: SurahDetail)
    requires Valid(s)
    requires s.selected == Some(surah) && s.data.Some?
    requires s.index < |again.ayahs|
    ensures
      var reopened := Open(Close(PersistProgress(s)), surah, Ok(again));
      reopened.index == s.index && reopened.data == Some(again) && Valid(reopened)
  {
  }

  /** Reading chapter N, opening another chapter M and returning to N
      resumes N where it was left, although opening M first wrote N's
      position under M's number. */
  lemma SwitchAndReturnResumes(s: State, surah: Surah, other: Surah, otherData: SurahDetail, again: SurahDetail)
    requires Valid(s)
    requires s.selected == Some(surah) && s.data.Some?
    requires other.number != surah.number
    requires s.index < |again.ayahs|
    ensures
      var away := Open(PersistProgress(s), other, Ok(otherData));
      var back := Open(away, surah, Ok(again));
      back.index == s.index && back.data == Some(again) && Valid(back)
  {
  }

  /** The stale write as the code has it: when the newly selected chapter
      fails to load, the position and length of the chapter still on screen
      stay recorded under the new chapter's number, and are what a later
      visit to that chapter restores when it has enough ayahs. */
  lemma FailedOpenKeepsStaleRecord(s: State, other: Surah, e: ApiError, later: SurahDetail)
    requires Valid(s) && s.data.Some?
    requires s.selected != Some(other)
    requires s.index < |later.ayahs|
    ensures
      var failed := Open(s, other, Err(e));
      && failed.progress[other.number] == Progress(s.index, |s.data.value.ayahs|)
      && Open(Close(failed), other, Ok(later)).index == s.index
  {
  }
}

=== FILE: keyed_list.dfy ===
/** The most-recent-first, capped, key-deduplicated lists kept in local
    storage: bookmarks (`ps_bookmarks`, at most 200) and favourites
    (`ps_favorites`, at most 500). Both components toggle an entry the same
    way; the shared logic lives here once. */
module KeyedList {

  import opened Seqs

  /** A stored bookmark or favourite: `{key, arabic, translation, surah,
      numberInSurah}`. */
  datatype Entry = Entry(key: string, arabic: string, translation: string, surah: string, numberInSurah: nat)

  /** `list.some(e => e.key === key)`. */
  predicate Has(list: seq<Entry>, key: string) {
    exists i :: 0 <= i < |list| && list[i].key == key
  }

  /** The filter callback `e => e.key !== key`. */
  function KeyDiffers(key: string): Entry -> bool {
    (e: Entry) => e.key != key
  }

  /** `list.filter(e => e.key !== key)`: every entry with that key goes, the
      others stay, in order and with their multiplicities. */
  function RemoveKey(list: seq<Entry>, key: string): (r: seq<Entry>)
    ensures !Has(r, key)
    ensures IsSubsequence(r, list)
    ensures forall e: Entry :: e.key != key ==> multiset(r)[e] == multiset(list)[e]
  {
    var r := Filter(list, KeyDiffers(key));
    assert forall i :: 0 <= i < |r| ==> r[i] in r;
    r
  }

  /** `[e, ...list].slice(0, cap)`: `e` first, then the newest entries of
      `list` that still fit under the cap. */
  function PrependCapped(list: seq<Entry>, e: Entry, cap: nat): (r: seq<Entry>)
    ensures |r| == Min(|list| + 1, cap)
    ensures |r| > 0 ==> r[0] == e && r[1..] == list[..|r| - 1]
  {
    ([e] + list)[..Min(|list| + 1, cap)]
  }

  /** Removes `e.key` when present, otherwise adds `e` at the front under
      the cap. */
  function Toggle(list: seq<Entry>, e: Entry, cap: nat): (r: seq<Entry>)
    ensures cap > 0 ==> (Has(r, e.key) <==> !Has(list, e.key))
    ensures |r| <= |list| + 1
    ensures |list| <= cap ==> |r| <= cap
    ensures Has(list, e.key) ==>
      && IsSubsequence(r, list)
      && (forall x: Entry :: x.key != e.key ==> multiset(r)[x] == multiset(list)[x])
    ensures !Has(list, e.key) && cap > 0 ==>
      |r| == Min(|list| + 1, cap) && r[0] == e && r[1..] == list[..|r| - 1]
  {
    if Has(list, e.key) then RemoveKey(list, e.key)
    else
      var r := PrependCapped(list, e, cap);
      assert |r| > 0 ==> r[0].key == e.key;
      r
  }

  /** Adding a new entry and toggling it again restores the list, provided
      the addition did not push an older entry past the cap. */
  lemma {:induction false} ToggleTwiceRestores(list: seq<Entry>, e: Entry, cap: nat)
    requires !Has(list, e.key) && |list| < cap
    ensures Toggle(Toggle(list, e, cap), e, cap) == list
  {
    var once := Toggle(list, e, cap);
    assert once == [e] + list;
    var p := KeyDiffers(e.key);
    FilterSkipsRejectedHead(e, list, p);
    FilterKeepsAll(list, p);
  }

  /** At the cap the same double toggle loses the oldest entry. */
  lemma {:induction false} ToggleTwiceAtCapDropsOldest(list: seq<Entry>, e: Entry, cap: nat)
    requires !Has(list, e.key) && 0 < cap <= |list|
    ensures Toggle(Toggle(list, e, cap), e, cap) == list[..cap - 1]
  {
    var once := Toggle(list, e, cap);
    assert once == [e] + list[..cap - 1];
    var p := KeyDiffers(e.key);
    FilterSkipsRejectedHead(e, list[..cap - 1], p);
    FilterKeepsAll(list[..cap - 1], p);
  }
}

=== FILE: seqs.dfy ===
/** Sequence helpers: `Array.prototype.filter` and the order-preserving
    subsequence relation it establishes. */
module Seqs {

  function Min(a: int, b: int): int {
    if a <= b then a else b
  }

  /** `a` can be obtained from `b` by deleting elements, keeping the order. */
  predicate IsSubsequence<T(==)>(a: seq<T>, b: seq<T>)
    decreases |b|
  {
    if |a| == 0 then true
    else if |b| == 0 then false
    else if a[0] == b[0] then IsSubsequence(a[1..], b[1..])
    else IsSubsequence(a, b[1..])
  }

  lemma {:induction false} SubsequenceRefl<T>(s: seq<T>)
    ensures IsSubsequence(s, s)
    decreases |s|
  {
    if |s| > 0 {
      SubsequenceRefl(s[1..]);
    }
  }

  /** `s.filter(p)`: the elements satisfying `p`, each as often as in `s`,
      in their original order, and nothing else. */
  function Filter<T(==,!new)>(s: seq<T>, p: T -> bool): (r: seq<T>)
    ensures |r| <= |s|
    ensures IsSubsequence(r, s)
    ensures forall x :: x in r ==> x in s && p(x)
    ensures forall x :: x in s && p(x) ==> x in r
    ensures forall x :: multiset(r)[x] == if p(x) then multiset(s)[x] else 0
    decreases |s|
  {
    if |s| == 0 then []
    else
      var rest := Filter(s[1..], p);
      assert s == [s[0]] + s[1..];
      if p(s[0]) then
        [s[0]] + rest
      else
        assert |rest| > 0 ==> rest[0] in rest && rest[0] != s[0];
        rest
  }

  /** Filtering with a predicate every element satisfies changes nothing. */
  lemma {:induction false} FilterKeepsAll<T(!new)>(s: seq<T>, p: T -> bool)
    requires forall i :: 0 <= i < |s| ==> p(s[i])
    ensures Filter(s, p) == s
    decreases |s|
  {
    if |s| > 0 {
      FilterKeepsAll(s[1..], p);
      assert s == [s[0]] + s[1..];
    }
  }

  /** Filtering a list headed by a rejected element filters only the tail. */
  lemma FilterSkipsRejectedHead<T(!new)>(x: T, s: seq<T>, p: T -> bool)
    requires !p(x)
    ensures Filter([x] + s, p) == Filter(s, p)
  {
    assert ([x] + s)[1..] == s;
  }
}

=== FILE: text.dfy ===
/** The JavaScript string operations the reader relies on: `trim`,
    `toLowerCase`, `includes`, `String(n)` for a non-negative integer, and
    two splitting functions used to read composed strings back. */
module Text {

  import opened Wrappers

  /** ECMAScript WhiteSpace and LineTerminator code points, the set
      `String.prototype.trim` removes. */
  predicate IsJsSpace(c: char) {
    || c == '\t' || c == '\n' || c == '\U{000B}' || c == '\U{000C}' || c == '\r'
    || c == ' ' || c == '\U{00A0}' || c == '\U{1680}'
    || ('\U{2000}' <= c <= '\U{200A}')
    || c == '\U{2028}' || c == '\U{2029}' || c == '\U{202F}' || c == '\U{205F}'
    || c == '\U{3000}' || c == '\U{FEFF}'
  }

  predicate IsBlank(s: string) {
    forall k :: 0 <= k < |s| ==> IsJsSpace(s[k])
  }

  /** Removes leading white space: a suffix of `s` that does not start with a
      space, preceded in `s` only by spaces. */
  function TrimStart(s: string): (r: string)
    ensures |r| <= |s| && r == s[|s| - |r|..]
    ensures forall k :: 0 <= k < |s| - |r| ==> IsJsSpace(s[k])
    ensures |r| > 0 ==> !IsJsSpace(r[0])
    decreases |s|
  {
    if |s| > 0 && IsJsSpace(s[0]) then TrimStart(s[1..]) else s
  }

  /** Removes trailing white space: a prefix of `s` that does not end with a
      space, followed in `s` only by spaces. */
  function TrimEnd(s: string): (r: string)
    ensures |r| <= |s| && r == s[..|r|]
    ensures forall k :: |r| <= k < |s| ==> IsJsSpace(s[k])
    ensures |r| > 0 ==> !IsJsSpace(r[|r| - 1])
    decreases |s|
  {
    if |s| > 0 && IsJsSpace(s[|s| - 1]) then TrimEnd(s[..|s| - 1]) else s
  }

  /** `r` sits in `s` at offset `i` with only spaces around it. */
  predicate TrimmedAt(s: string, r: string, i: int) {
    && 0 <= i <= |s| - |r|
    && s[i..i + |r|] == r
    && (forall k :: 0 <= k < i ==> IsJsSpace(s[k]))
    && (forall k :: i + |r| <= k < |s| ==> IsJsSpace(s[k]))
  }

  /** `s.trim()`: the infix of `s` left after removing white space at both
      ends; it neither starts nor ends with white space. */
  function Trim(s: string): (r: string)
    ensures exists i :: TrimmedAt(s, r, i)
    ensures |r| > 0 ==> !IsJsSpace(r[0]) && !IsJsSpace(r[|r| - 1])
  {
    var t := TrimStart(s);
    var r := TrimEnd(t);
    assert TrimmedAt(s, r, |s| - |t|);
    r
  }

  /** Trimming yields the empty string exactly for white-space-only input. */
  lemma TrimEmptyIffBlank(s: string)
    ensures Trim(s) == "" <==> IsBlank(s)
  {
  }

  predicate IsAsciiUpper(c: char) {
    'A' <= c <= 'Z'
  }

  /** `s.toLowerCase()` restricted to ASCII: each upper-case ASCII letter
      becomes its lower-case letter, every other character is kept. */
  function Lower(s: string): (r: string)
    ensures |r| == |s|
    ensures forall i :: 0 <= i < |s| ==>
      if IsAsciiUpper(s[i]) then r[i] as int == s[i] as int + 32 else r[i] == s[i]
    ensures forall i :: 0 <= i < |r| ==> !IsAsciiUpper(r[i])
    decreases |s|
  {
    if |s| == 0 then "" else [LowerChar(s[0])] + Lower(s[1..])
  }

  function LowerChar(c: char): char {
    if IsAsciiUpper(c) then (c as int + 32) as char else c
  }

  /** A character is white space exactly when its lower-case form is. */
  lemma LowerCharKeepsSpaces(c: char)
    ensures IsJsSpace(LowerChar(c)) <==> IsJsSpace(c)
  {
  }

  /** Lower-casing twice is lower-casing once. */
  lemma LowerIdempotent(s: string)
    ensures Lower(Lower(s)) == Lower(s)
  {
  }

  /** Lower-casing leaves white space alone, so it commutes with `trim`. */
  lemma TrimCommutesWithLower(s: string)
    ensures Trim(Lower(s)) == Lower(Trim(s))
  {
    TrimStartCommutesWithLower(s);
    TrimEndCommutesWithLower(TrimStart(s));
  }

  lemma {:induction false} TrimStartCommutesWithLower(s: string)
    ensures TrimStart(Lower(s)) == Lower(TrimStart(s))
    decreases |s|
  {
    if |s| > 0 {
      assert Lower(s)[0] == LowerChar(s[0]);
      LowerCharKeepsSpaces(s[0]);
      if IsJsSpace(s[0]) {
        assert Lower(s)[1..] == Lower(s[1..]);
        TrimStartCommutesWithLower(s[1..]);
      }
    }
  }

  lemma {:induction false} TrimEndCommutesWithLower(s: string)
    ensures TrimEnd(Lower(s)) == Lower(TrimEnd(s))
    decreases |s|
  {
    if |s| > 0 {
      var n := |s| - 1;
      assert Lower(s)[n] == LowerChar(s[n]);
      LowerCharKeepsSpaces(s[n]);
      if IsJsSpace(s[n]) {
        assert Lower(s)[..n] == Lower(s[..n]);
        TrimEndCommutesWithLower(s[..n]);
      }
    }
  }

  predicate IsPrefix(p: string, s: string) {
    |p| <= |s| && s[..|p|] == p
  }

  /** `needle` occurs in `hay` starting at position `i`. */
  predicate OccursAt(hay: string, needle: string, i: int) {
    0 <= i && i + |needle| <= |hay| && hay[i..i + |needle|] == needle
  }

  /** `needle` occurs somewhere in `hay`. */
  ghost predicate Occurs(hay: string, needle: string) {
    exists i :: OccursAt(hay, needle, i)
  }

  /** `hay.includes(needle)`, scanning left to right. */
  predicate Contains(hay: string, needle: string)
    decreases |hay|
  {
    IsPrefix(needle, hay) || (|hay| > 0 && Contains(hay[1..], needle))
  }

  /** The scan finds `needle` exactly when it occurs somewhere in `hay`. */
  lemma {:induction false} ContainsIff(hay: string, needle: string)
    ensures Contains(hay, needle) <==> Occurs(hay, needle)
    decreases |hay|
  {
    if IsPrefix(needle, hay) {
      assert OccursAt(hay, needle, 0);
    }
    if |hay| > 0 {
      ContainsIff(hay[1..], needle);
      if Contains(hay[1..], needle) {
        var j :| OccursAt(hay[1..], needle, j);
        assert hay[1..][j..j + |needle|] == hay[j + 1..j + 1 + |needle|];
        assert OccursAt(hay, needle, j + 1);
      }
      if i :| OccursAt(hay, needle, i) {
        if i > 0 {
          assert hay[1..][i - 1..i - 1 + |needle|] == hay[i..i + |needle|];
          assert OccursAt(hay[1..], needle, i - 1);
        } else {
          assert IsPrefix(needle, hay);
        }
      }
    } else {
      if i :| OccursAt(hay, needle, i) {
        assert i == 0 && needle == [];
        assert IsPrefix(needle, hay);
      }
    }
  }

  predicate IsDigit(c: char) {
    '0' <= c <= '9'
  }

  predicate IsDigits(s: string) {
    forall k :: 0 <= k < |s| ==> IsDigit(s[k])
  }

  function DigitChar(d: nat): char
    requires d < 10
  {
    ('0' as int + d) as char
  }

  /** `String(n)` for a non-negative integer: its decimal digits, most
      significant first, without leading zeros. */
  function Decimal(n: nat): (r: string)
    ensures |r| > 0 && IsDigits(r)
    ensures |r| > 1 ==> r[0] != '0'
    decreases n
  {
    if n < 10 then [DigitChar(n)] else Decimal(n / 10) + [DigitChar(n % 10)]
  }

  function ParseDecimal(s: string): nat
    requires IsDigits(s)
    decreases |s|
  {
    if |s| == 0 then 0
    else ParseDecimal(s[..|s| - 1]) * 10 + (s[|s| - 1] as int - '0' as int)
  }

  /** Reading the decimal digits back gives the number. */
  lemma {:induction false} DecimalRoundTrip(n: nat)
    ensures ParseDecimal(Decimal(n)) == n
    decreases n
  {
    if n >= 10 {
      DecimalRoundTrip(n / 10);
      var d := Decimal(n / 10);
      assert (d + [DigitChar(n % 10)])[..|d|] == d;
    }
  }

  /** Digits as `String(n)` writes them: at least one, and no leading zero
      unless the number is zero itself. */
  predicate IsCanonicalDecimal(s: string) {
    |s| > 0 && IsDigits(s) && (|s| == 1 || s[0] != '0')
  }

  /** A digit string that does not start with `0` names a positive number. */
  lemma {:induction false} ParseDecimalPositive(s: string)
    requires |s| > 0 && IsDigits(s) && s[0] != '0'
    ensures ParseDecimal(s) >= 1
    decreases |s|
  {
    if |s| > 1 {
      ParseDecimalPositive(s[..|s| - 1]);
    }
  }

  /** Writing a canonical digit string's value gives the same string back. */
  lemma {:induction false} ParseDecimalRoundTrip(s: string)
    requires IsCanonicalDecimal(s)
    ensures Decimal(ParseDecimal(s)) == s
    decreases |s|
  {
    var last := s[|s| - 1];
    var d := last as int - '0' as int;
    assert IsDigit(last);
    if |s| > 1 {
      var p := s[..|s| - 1];
      assert p[0] == s[0];
      ParseDecimalPositive(p);
      ParseDecimalRoundTrip(p);
      var n := ParseDecimal(s);
      assert n == ParseDecimal(p) * 10 + d;
      assert n / 10 == ParseDecimal(p) && n % 10 == d;
      assert DigitChar(d) == last;
      assert p + [last] == s;
    }
  }

  /** `s.split(sep)`: the maximal separator-free pieces, in order. */
  function Split(s: string, sep: char): (r: seq<string>)
    ensures |r| > 0
    ensures forall k :: 0 <= k < |r| ==> sep !in r[k]
    decreases |s|
  {
    if |s| == 0 then [""]
    else
      var rest := Split(s[1..], sep);
      if s[0] == sep then [""] + rest else [[s[0]] + rest[0]] + rest[1..]
  }

  lemma {:induction false} SplitNoSeparator(a: string, sep: char)
    requires sep !in a
    ensures Split(a, sep) == [a]
    decreases |a|
  {
    if |a| > 0 {
      SplitNoSeparator(a[1..], sep);
      assert [a[0]] + a[1..] == a;
    }
  }

  /** Splitting `a + sep + t`, where `a` has no separator, yields `a` first. */
  lemma {:induction false} SplitJoin(a: string, sep: char, t: string)
    requires sep !in a
    ensures Split(a + [sep] + t, sep) == [a] + Split(t, sep)
    decreases |a|
  {
    var s := a + [sep] + t;
    if |a| == 0 {
      assert s[1..] == t;
    } else {
      assert s[1..] == a[1..] + [sep] + t;
      SplitJoin(a[1..], sep, t);
      assert [a[0]] + a[1..] == a;
    }
  }

  /** Splits `s` at the last occurrence of `c`, if any. */
  function SplitLast(s: string, c: char): Option<(string, string)>
    decreases |s|
  {
    if |s| == 0 then None
    else if s[|s| - 1] == c then Some((s[..|s| - 1], ""))
    else
      match SplitLast(s[..|s| - 1], c)
      case None => None
      case Some(p) => Some((p.0, p.1 + [s[|s| - 1]]))
  }

  /** A split at the last `c` puts the two parts back together around that
      `c`, and the second part holds no other `c`. */
  lemma {:induction false} SplitLastSound(s: string, c: char)
    ensures SplitLast(s, c).Some? <==> c in s
    ensures SplitLast(s, c).Some? ==>
      var p := SplitLast(s, c).value; s == p.0 + [c] + p.1 && c !in p.1
    decreases |s|
  {
    if |s| > 0 && s[|s| - 1] != c {
      var init := s[..|s| - 1];
      SplitLastSound(init, c);
      assert s == init + [s[|s| - 1]];
      assert c in s <==> c in init;
    } else if |s| > 0 {
      assert s == s[..|s| - 1] + [c];
    }
  }

  /** When `t` has no `c`, the last `c` of `a + c + t` is the one between them. */
  lemma {:induction false} SplitLastJoin(a: string, c: char, t: string)
    requires c !in t
    ensures SplitLast(a + [c] + t, c) == Some((a, t))
    decreases |t|
  {
    var s := a + [c] + t;
    if |t| == 0 {
      assert s[..|s| - 1] == a;
    } else {
      var t' := t[..|t| - 1];
      assert s[..|s| - 1] == a + [c] + t';
      assert c !in t' by {
        forall k | 0 <= k < |t'| ensures t'[k] != c {
          assert t'[k] == t[k];
        }
      }
      SplitLastJoin(a, c, t');
      assert t' + [t[|t| - 1]] == t;
    }
  }
}

=== FILE: wrappers.dfy ===
/** Failure-carrying values used across the model: `Option` for JavaScript's
    `undefined`/`null`, `Result` for a promise that resolves or throws. */
module Wrappers {

  datatype Option<+T> = None | Some(value: T)

  datatype Result<+T, +E> = Ok(value: T) | Err(error: E)
}
